=== FILE: README.md ===
# Mesh editor core

A Dafny model of the mesh-editing core of a small three.js/React 3D editor.
The model covers two parts of the code:

- the zustand store (`src/store/sceneStore.ts`). It holds the scene
  registry, the element selection and the two drag sessions. The drag
  sessions write the selected mesh's position buffer in place.
- the pickable edge list of the `EdgeLines` component and the derived
  display state of `Scene` (`src/components/Scene.tsx`).

Coordinates are `real` triples. A geometry owns its position buffer as an
`array<Vec3>`, one entry per raw (unwelded) vertex. Two vertices are *welded*
when `distanceTo` between them is below 0.0001. The model states this as a
squared distance below `1e-8`, which is exact for non-negative reals. A
*weld group* is the list of raw vertices welded to a picked one.

Modules, one per file:

| file | module | what it holds |
|---|---|---|
| wrappers.dfy | `Wrappers` | `Option` |
| vectors.dfy | `Vectors` | `Vec3`, vector arithmetic, the weld tolerance |
| meshes.dfy | `Meshes` | `Geometry` (shape parameters, position buffer, optional index) and `Object3D` (reassignable `geometry`) |
| welding.dfy | `Welding` | weld-group scans, the `Set` of connected vertices, the edge-pair product |
| drags.dfy | `Drags` | the two session records and what one pointer move does to the buffer |
| registry.dfy | `SceneRegistry` | the object list and the selected object as pure record updates |
| elements.dfy | `Elements` | `selectedElements` |
| store.dfy | `SceneStore` | the `Store` class: every store operation as a method on its fields |
| edges.dfy | `EdgeLines` | edge enumeration, the `isSelected` highlight, the edge-click guard |
| view.dfy | `SceneView` | vertex-marker colour and the coordinate panel's position |

Objects are a Dafny `class`, so "the selected object" is compared by
reference, as `===` does in the source. The store's pure updates (registry,
`setSelectedElements`) are functions. The `Store` methods are proved equal to
those functions. The loops of the source (weld scans, `Set.add`, the nested
pair loop, the buffer writes, the edge enumeration) are methods with loop
invariants. Each loop method is proved equal to a specification function, and
the lemmas state the properties of that function.

The model follows the code, in particular where it is easy to misread:

- `draggedVertex`, `draggedEdge` and `isDraggingEdge` are three independent
  fields, not one tagged union. No operation ties one to another.
- No inverse world transform is applied before a buffer write.
  `updateVertexDrag` stores the point exactly as it receives it, and the
  caller passes a world-space plane intersection. The coordinate panel
  then applies the world transform on top of that point.
- An out-of-range index raises no error. Past the end of the buffer,
  `getX`, `getY` and `getZ` read `undefined`, and `new THREE.Vector3` turns
  each `undefined` into its default 0, so the read gives the origin
  (`Vectors.ReadVertex`). `startVertexDrag` then collects every vertex at
  the origin, and `findOverlappingVertices` lists the index first and
  then every vertex at the origin. The coordinate panel shows the
  transformed origin for a first selected vertex past the end. Writes past
  the end of a typed array are ignored, and the buffer functions
  `Overwritten` and `Translated` ignore them too.
- The store has no transition that ends an edge drag on a second click.
  Only the window `contextmenu`/`mousedown` listener ends an edge drag, by
  calling `endEdgeDrag`, and only on a right-button event
  (`event.button === 2`). A left-button mouse-down during an edge drag
  leaves the session running.
- `updateCylinderVertices` tests `instanceof THREE.CylinderGeometry`, which
  a cone geometry also passes. A selected cone is therefore rebuilt as a
  cylinder with the generator's default radius 1 at both ends, because the
  cone's parameters have no `radiusTop` or `radiusBottom`.

## Model

| member | source | states |
|---|---|---|
| Vectors.Midpoint | src/components/Scene.tsx:179 | the marker midpoint is equidistant from both ends: `m - a == b - m` |
| Vectors.SqDist | src/store/sceneStore.ts:162 | defines the square of `distanceTo`, the sum of the squared coordinate differences; it is never negative |
| Vectors.Coincident | src/store/sceneStore.ts:162 | defines the weld test `distanceTo < 0.0001` as squared distance below 1e-8, the same test since both sides are non-negative; `findOverlappingVertices` uses it again at line 236 |
| Vectors.CoincidentReflexive | src/store/sceneStore.ts:162 | every vertex is within weld tolerance of itself |
| Vectors.CoincidentSymmetric | src/store/sceneStore.ts:162 | the tolerance test does not depend on argument order |
| Vectors.TranslationKeepsDistance | src/store/sceneStore.ts:279-289 | moving two points by the same offset keeps their distance |
| Vectors.ReadVertex | src/store/sceneStore.ts:150-154 | defines what reading vertex `i` gives: the stored position in range, and the origin past either end, where each coordinate is `undefined` and `Vector3` falls back to 0 |
| Welding.Scan | src/store/sceneStore.ts:156-165 | a scan lists only indices below its bound and never the skipped index |
| Welding.ScanMembers | src/store/sceneStore.ts:156-165 | an index is listed iff it is in range, not skipped, and coincides with the target |
| Welding.ScanIncreasing | src/store/sceneStore.ts:156-165 | a scan lists indices in strictly increasing order |
| Welding.WeldGroup | src/store/sceneStore.ts:149-165 | defines the weld group `startVertexDrag` collects: every vertex within tolerance of what reading `k` gives, in index order |
| Welding.EndpointGroup | src/store/sceneStore.ts:219-241 | defines what `findOverlappingVertices` returns: the endpoint, then every other vertex within tolerance of what reading it gives, in index order |
| Welding.WeldGroupMembers | src/store/sceneStore.ts:149-165 | `i` is in the weld group of `k` iff `i` is a vertex whose position is within tolerance of what reading `k` gives: vertex `k`, or the origin past the end |
| Welding.WeldGroupReflexive | src/store/sceneStore.ts:149-165 | for a vertex inside the buffer, the picked vertex is in its own weld group |
| Welding.WeldGroupSymmetric | src/store/sceneStore.ts:149-165 | for vertices `i` and `j` inside the buffer, `i` is in the group of `j` iff `j` is in the group of `i` |
| Welding.WeldGroupOrdered | src/store/sceneStore.ts:156-165 | the weld group is strictly increasing, so each vertex is listed once |
| Welding.EndpointGroupIsWeldGroup | src/store/sceneStore.ts:219-241 | an endpoint group lists the endpoint first and has no repeats; its members are the endpoint and its weld group, which for an endpoint inside the buffer is exactly the weld group |
| Welding.CollectOverlapping | src/store/sceneStore.ts:147-165 | the scan loop returns the weld group of the picked index; past the end, that is every vertex at the origin |
| Welding.FindOverlappingVertices | src/store/sceneStore.ts:219-241 | the helper loop returns the endpoint followed by the other vertices that coincide with what reading it gives; past the end, that is every vertex at the origin |
| Welding.Insert | src/store/sceneStore.ts:248 | defines `Set.add` on an insertion-ordered set: the element is appended unless it is already present |
| Welding.InsertAll | src/store/sceneStore.ts:248-249 | defines a `forEach` of `Set.add`: each element added in turn, in list order |
| Welding.ConnectedVertices | src/store/sceneStore.ts:247-249 | defines `connectedVertices`: both endpoint groups added, first then second, to an empty set |
| Welding.InsertAllMembers | src/store/sceneStore.ts:248-249 | after a run of `Set.add`, the set holds exactly its old members and the added ones |
| Welding.InsertAllDistinct | src/store/sceneStore.ts:248-249 | `Set.add` never creates a repeat |
| Welding.ConnectedVerticesUnion | src/store/sceneStore.ts:247-249 | `connectedVertices` is the union of the two endpoint groups, without repeats |
| Welding.CollectConnected | src/store/sceneStore.ts:247-249 | the two `forEach` loops build that union in insertion order |
| Welding.Row | src/store/sceneStore.ts:253-255 | defines one pass of the inner loop: the pairs of one first-group vertex with every second-group vertex, in order |
| Welding.Product | src/store/sceneStore.ts:251-256 | defines the edge-pair list: the rows of every first-group vertex, concatenated in order |
| Welding.ProductSize | src/store/sceneStore.ts:251-256 | the edge-pair list has `|g1| * |g2|` entries |
| Welding.ProductMembers | src/store/sceneStore.ts:251-256 | `(a, b)` is a pair iff `a` is in the first group and `b` in the second |
| Welding.ProductDistinct | src/store/sceneStore.ts:251-256 | with repeat-free groups, every pair occurs once |
| Welding.PairUp | src/store/sceneStore.ts:251-256 | the nested loops push the pairs row by row |
| Drags.Overwritten | src/store/sceneStore.ts:187-194 | defines the buffer after `setXYZ(i, p)` for every listed index; writes past the end are ignored |
| Drags.Translated | src/store/sceneStore.ts:282-290 | defines the buffer after every listed vertex is read, moved by the offset and written back; writes past the end are ignored |
| Drags.VertexDragMovesWeldGroup | src/store/sceneStore.ts:180-194 | dragging the group of `k` to `p` puts exactly the vertices that coincided with what reading `k` gives at `p`, leaves every other vertex alone, and keeps the group welded |
| Drags.LastVertexUpdateWins | src/store/sceneStore.ts:187-194 | two successive vertex updates over one group equal the second alone |
| Drags.EdgeDragIsRigid | src/store/sceneStore.ts:279-290 | an edge update keeps the difference between any two connected vertices, and with it whether they are welded |
| Drags.EdgeDragUpdatesCompose | src/store/sceneStore.ts:279-300 | updates from anchor `m` to `p`, then from `p` to `q`, equal one update from `m` to `q` |
| Drags.EdgeDragMovesBothGroups | src/store/sceneStore.ts:244-290 | for endpoints inside the buffer, an edge update moves exactly the vertices welded to either endpoint, all by the same offset |
| SceneRegistry.Find | src/store/sceneStore.ts:78 | `find` returns nothing iff no entry has the id, and otherwise the first entry with it |
| SceneRegistry.FindUnique | src/store/sceneStore.ts:78 | with unique ids, `find` returns the one entry with that id |
| SceneRegistry.AddObject | src/store/sceneStore.ts:70-73 | one new visible entry with the given object and name at the end; earlier entries unchanged and in order; selection untouched; a fresh id keeps ids unique |
| SceneRegistry.Without | src/store/sceneStore.ts:77 | defines the `filter` that drops every entry with the given id and keeps the others in order |
| SceneRegistry.WithoutMembers | src/store/sceneStore.ts:77 | the filter keeps exactly the entries with another id |
| SceneRegistry.WithoutAbsent | src/store/sceneStore.ts:77 | filtering an absent id changes nothing |
| SceneRegistry.WithoutKeepsUnique | src/store/sceneStore.ts:77 | filtering keeps ids unique |
| SceneRegistry.RemoveObject | src/store/sceneStore.ts:75-81 | keeps exactly the entries with another id; an unknown id changes nothing; the selection is either kept or cleared, and with unique ids it is cleared iff the entry with that id holds the selected object |
| SceneRegistry.WithoutDeletesSlot | src/store/sceneStore.ts:77 | with unique ids, filtering out the id of slot `i` deletes exactly that slot and keeps the rest in order |
| SceneRegistry.RemoveObjectDeletesSlot | src/store/sceneStore.ts:77 | removing a present id deletes exactly its slot; the others keep their order |
| SceneRegistry.Toggled | src/store/sceneStore.ts:89-91 | defines the `map` that flips `visible` on every entry with the given id and keeps the others |
| SceneRegistry.ToggleVisibility | src/store/sceneStore.ts:87-103 | flips `visible` only on entries with the id; ids, objects, names and length unchanged; with unique ids the selection is cleared iff that entry was visible and holds the selected object |
| SceneRegistry.ShowingKeepsSelection | src/store/sceneStore.ts:95-97 | making a hidden object visible never clears the selection |
| SceneRegistry.ToggleTwiceRestores | src/store/sceneStore.ts:89-91 | toggling one id twice restores every entry |
| SceneRegistry.UpdateObjectName | src/store/sceneStore.ts:105-110 | renames the entries with the id; everything else stays in place |
| Elements.SetSelectedElements | src/store/sceneStore.ts:135-141 | the list of the given kind becomes `indices`; the other two stay |
| Elements.SetSelectedElementsOverrides | src/store/sceneStore.ts:135-141 | setting one kind twice keeps the second list; setting two different kinds commutes |
| SceneStore.Store.constructor | src/store/sceneStore.ts:57-68 | the initial state: no objects, no selection, empty element lists, no sessions |
| SceneStore.Store.AddObject | src/store/sceneStore.ts:70-73 | the registry becomes `SceneRegistry.AddObject` of the old one, so ids stay unique under a fresh id; selection lists and sessions untouched |
| SceneStore.Store.RemoveObject | src/store/sceneStore.ts:75-81 | the registry becomes `SceneRegistry.RemoveObject` of the old one; ids stay unique, and the selection is cleared iff the entry with that id held the selected object; the rest untouched |
| SceneStore.Store.ToggleVisibility | src/store/sceneStore.ts:87-103 | the registry becomes `SceneRegistry.ToggleVisibility` of the old one; ids stay unique, and the selection is cleared iff the entry with that id was visible and held the selected object; the rest untouched |
| SceneStore.Store.UpdateObjectName | src/store/sceneStore.ts:105-110 | the registry becomes `SceneRegistry.UpdateObjectName` of the old one; the rest untouched |
| SceneStore.Store.SetSelectedObject | src/store/sceneStore.ts:83 | the selection becomes the argument, unchecked against the list; nothing else changes |
| SceneStore.Store.SetSelectedElements | src/store/sceneStore.ts:135-141 | the element selection becomes `Elements.SetSelectedElements` of the old one; nothing else changes |
| SceneStore.Store.HasMesh | src/store/sceneStore.ts:145 | defines the `instanceof THREE.Mesh` guard: an object is selected and it is a mesh |
| SceneStore.Store.StartVertexDrag | src/store/sceneStore.ts:143-178 | with a mesh selected, the session holds the weld group of the index and the position twice, and the group becomes the vertex selection with edges and faces untouched; without a mesh nothing changes |
| SceneStore.Store.UpdateVertexDrag | src/store/sceneStore.ts:180-205 | with a vertex session and a mesh, every group index of the buffer holds the point as given and the rest is unchanged; `position` follows and `initialPosition` stays; otherwise nothing changes |
| SceneStore.Store.EndVertexDrag | src/store/sceneStore.ts:207 | clears the vertex session and nothing else, so a second call changes nothing |
| SceneStore.Store.StartEdgeDrag | src/store/sceneStore.ts:209-271 | with a mesh selected, the session holds the product of the two endpoint groups, their union, the given positions twice and the anchor; the union becomes the edge selection; without a mesh nothing changes |
| SceneStore.Store.UpdateEdgeDrag | src/store/sceneStore.ts:273-301 | with an edge session and a mesh, every connected vertex moves by the point minus the old anchor, the rest is unchanged, and the anchor becomes the point; otherwise nothing changes |
| SceneStore.Store.EndEdgeDrag | src/store/sceneStore.ts:303 | clears the edge session and nothing else, so a second call changes nothing |
| SceneStore.Store.SetIsDraggingEdge | src/store/sceneStore.ts:305 | sets the flag and nothing else |
| SceneStore.Store.IsCylinder | src/store/sceneStore.ts:309-310 | defines the cylinder guard: a mesh whose geometry is a cylinder or a cone, since a cone passes `instanceof CylinderGeometry` |
| SceneStore.Store.IsSphere | src/store/sceneStore.ts:341-342 | defines the sphere guard: a mesh whose geometry is a sphere |
| SceneStore.Store.UpdateCylinderVertices | src/store/sceneStore.ts:307-337 | a selected cylinder gets a fresh geometry with `vertexCount` radial segments and its other parameters carried over; a selected cone becomes such a cylinder with both radii 1; in both cases all three selection lists become empty; otherwise nothing changes |
| SceneStore.Store.UpdateSphereVertices | src/store/sceneStore.ts:339-368 | a selected sphere gets a fresh geometry with `vertexCount` width and `vertexCount / 2` height segments, the rest carried over, and all three lists become empty; otherwise nothing changes |
| EdgeLines.NextCorner | src/components/Scene.tsx:189-191 | the next corner is another corner of the same triangle |
| EdgeLines.NextCornerCycles | src/components/Scene.tsx:189-191 | three steps around a triangle return to the start corner |
| EdgeLines.CornerVertex | src/components/Scene.tsx:161-168 | the vertex at a corner is a vertex of the buffer |
| EdgeLines.Marker | src/components/Scene.tsx:166-186 | defines the marker `addEdge` pushes: the vertex pair, their two transformed positions and the midpoint of those |
| EdgeLines.EnumerateEdges | src/components/Scene.tsx:160-223 | one edge per corner, edge `k` running from corner `k` to the next corner of its triangle, through the index buffer when there is one and over raw vertices otherwise |
| EdgeLines.MarkerMidpointIsAverage | src/components/Scene.tsx:179 | each marker holds the world positions of its two vertices, and its midpoint is their componentwise average |
| EdgeLines.EdgeHighlighted | src/components/Scene.tsx:285-287 | defines `isSelected`: an edge drag exists and one of its pairs equals the edge in either orientation |
| EdgeLines.EdgeHighlightSymmetric | src/components/Scene.tsx:285-287 | the highlight ignores edge orientation and is false without an edge drag |
| EdgeLines.HighlightOfStartedDrag | src/components/Scene.tsx:285-287 | while an edge is dragged, an edge is red iff its ends coincide with the dragged ends in either orientation |
| EdgeLines.EdgeClickState.constructor | src/components/Scene.tsx:157-158 | no clicks counted and no timer pending |
| EdgeLines.EdgeClickState.HandleEdgeClick | src/components/Scene.tsx:259-264 | during an edge drag a click changes nothing; otherwise it counts one click and arms the timer |
| SceneView.VertexMarkerColour | src/components/Scene.tsx:139 | defines the marker colour: red when the vertex index is in `selectedElements.vertices`, yellow otherwise |
| SceneView.RedMarkersAreWeldGroup | src/components/Scene.tsx:139 | right after a vertex drag starts at `k`, a marker is red iff its vertex coincides with what reading `k` gives |
| SceneView.DisplayedPosition | src/components/Scene.tsx:390-411 | the panel is hidden iff not in vertex mode, no mesh is selected, or there is neither a drag nor a selected vertex; with no drag it shows the transformed first selected vertex, or the transformed origin when that index is past the end |
| SceneView.PanelFollowsDrag | src/components/Scene.tsx:392-393 | during a vertex drag the panel shows the drag position, whatever is selected |
| SceneView.PanelAfterPickShowsWeldedVertex | src/components/Scene.tsx:394-404 | after a vertex is picked at `k` and released without moving, the panel shows the world position of the group's first member, a vertex at or before `k` that coincides with `k` and has no vertex before it coinciding with `k` |
| SceneView.PanelAfterDragShowsDropPoint | src/components/Scene.tsx:394-404 | after the group of `k` is dragged to `p` and released, the panel shows `world(p)`, the transform applied on top of the point the drag wrote |

## Left out

- Rendering, JSX, materials, transform and orbit controls. They have no state
  the core updates.
- Ray casting and plane intersection. The intersection point is the
  `position` argument of `UpdateVertexDrag` and `UpdateEdgeDrag`. A move
  whose ray misses the plane simply makes no call.
- `applyMatrix4(matrixWorld)`. It is the `world` parameter of
  `EnumerateEdges`, `Marker` and `DisplayedPosition`, an arbitrary function.
- `computeVertexNormals` and `needsUpdate`. Normals are not part of the
  position buffer the model holds.
- `crypto.randomUUID`. The id is a parameter that the caller must choose
  fresh.
- The three.js primitive generators and `dispose`. The vertex-count updates
  take the rebuilt buffers as parameters.
- EdgeLines.EdgeClickState.HandleEdgeClick: models only the synchronous part
  of the handler. The 300 ms timer callback is not modelled, including the
  double-click test, the call to `startEdgeDrag` and the reset of the count.
- EdgeLines.EnumerateEdges: requires whole triangles and index entries inside
  the buffer. Past the end, the source reads origin endpoints, and the model
  does not describe those markers.
- Window listener wiring: pointer move, pointer up, context menu and mouse
  down.
- `setTransformMode`, `setEditMode`, `updateObjectColor` and
  `updateObjectOpacity`. The first two only set UI mode flags, and the
  last two mutate materials.
- `updateObjectProperties`. It puts the same state back unchanged, and its
  only effect is that subscribers render again.
- `parseFloat` input handling in the coordinate panel.
- The panel components, the toolbar and the application shell.
- `Object3D`: a non-mesh object still carries a `geometry` field, which the
  model never reads.
- Floating point is not modelled. Coordinates are exact reals, so a sum or
  midpoint carries no rounding.
- SceneRegistry.RemoveObject and SceneRegistry.ToggleVisibility: the
  "cleared iff" clause assumes unique ids. With duplicate ids the source
  looks only at the first match, and the model states only that the
  selection is either kept or cleared. The `Store` keeps ids unique as
  part of `Valid()`, so its own `RemoveObject` and `ToggleVisibility`
  state the full clause.

=== FILE: drags.dfy ===
/**
 * The two drag sessions of the store and what one pointer move does to the
 * position buffer during each of them.
 */
module Drags {
  import opened Vectors
  import opened Welding

  /** `draggedVertex`: the weld group being moved and the drag's current and first positions. */
  datatype VertexDrag = VertexDrag(indices: seq<nat>, position: Vec3, initialPosition: Vec3)

  /**
   * `draggedEdge`: the weld-expanded index pairs, the two endpoint positions
   * (as given and as first given), the union of the endpoint groups, and the
   * drag anchor.
   */
  datatype EdgeDrag = EdgeDrag(indices: seq<(nat, nat)>, positions: seq<Vec3>, initialPositions: seq<Vec3>,
                               connectedVertices: seq<nat>, midpoint: Vec3)

  /**
   * The buffer after `setXYZ(index, p)` for every index of `idx`. A typed
   * array ignores writes past its end, so indices out of range change nothing.
   */
  function Overwritten(s: seq<Vec3>, idx: seq<nat>, p: Vec3): seq<Vec3> {
    seq(|s|, j requires 0 <= j < |s| => if j in idx then p else s[j])
  }

  /** The buffer after every vertex of `cv` (each listed once) has moved by `offset`. */
  function Translated(s: seq<Vec3>, cv: seq<nat>, offset: Vec3): seq<Vec3> {
    seq(|s|, j requires 0 <= j < |s| => if j in cv then Add(s[j], offset) else s[j])
  }

  /**
   * Dragging the weld group of `k` to `p` puts exactly the vertices that
   * coincided with what reading `k` gives at `p`, leaves every other vertex
   * where it was, and keeps the group welded: each member is afterwards in
   * the weld group of every other member.
   */
  lemma VertexDragMovesWeldGroup(s: seq<Vec3>, k: nat, p: Vec3)
    ensures var r := Overwritten(s, WeldGroup(s, k), p);
      && |r| == |s|
      && (forall i :: 0 <= i < |s| ==> r[i] == if Coincident(s[i], ReadVertex(s, k)) then p else s[i])
      && (forall i, j :: i in WeldGroup(s, k) && j in WeldGroup(s, k) ==> j in WeldGroup(r, i))
  {
    var g := WeldGroup(s, k);
    var r := Overwritten(s, g, p);
    forall i | 0 <= i < |s|
      ensures r[i] == if Coincident(s[i], ReadVertex(s, k)) then p else s[i]
    {
      WeldGroupMembers(s, k, i);
    }
    forall i, j | i in g && j in g
      ensures j in WeldGroup(r, i)
    {
      WeldGroupMembers(s, k, i);
      WeldGroupMembers(s, k, j);
      WeldGroupMembers(r, i, j);
      CoincidentReflexive(p);
    }
  }

  /** Of two successive vertex-drag updates over the same group, the second wins. */
  lemma LastVertexUpdateWins(s: seq<Vec3>, idx: seq<nat>, p: Vec3, q: Vec3)
    ensures Overwritten(Overwritten(s, idx, p), idx, q) == Overwritten(s, idx, q)
  {
    var once := Overwritten(s, idx, p);
    assert |Overwritten(once, idx, q)| == |Overwritten(s, idx, q)|;
    forall j | 0 <= j < |s|
      ensures Overwritten(once, idx, q)[j] == Overwritten(s, idx, q)[j]
    {
    }
  }

  /**
   * An edge-drag update is a rigid translation of the connected vertices:
   * the difference between any two of them, and so their distance and
   * whether they are welded, is what it was before.
   */
  lemma EdgeDragIsRigid(s: seq<Vec3>, cv: seq<nat>, offset: Vec3, i: nat, j: nat)
    requires i < |s| && j < |s| && i in cv && j in cv
    ensures var r := Translated(s, cv, offset);
      && Sub(r[i], r[j]) == Sub(s[i], s[j])
      && (Coincident(r[i], r[j]) <==> Coincident(s[i], s[j]))
  {
    TranslationKeepsDistance(s[i], s[j], offset);
  }

  /**
   * Two successive edge-drag updates, from anchor `m` to `p` and then from
   * `p` to `q`, move the connected vertices as one update from `m` to `q`.
   */
  lemma EdgeDragUpdatesCompose(s: seq<Vec3>, cv: seq<nat>, m: Vec3, p: Vec3, q: Vec3)
    ensures Translated(Translated(s, cv, Sub(p, m)), cv, Sub(q, p)) == Translated(s, cv, Sub(q, m))
  {
    var once := Translated(s, cv, Sub(p, m));
    var twice := Translated(once, cv, Sub(q, p));
    var direct := Translated(s, cv, Sub(q, m));
    assert |twice| == |direct|;
    forall j | 0 <= j < |s|
      ensures twice[j] == direct[j]
    {
      if j in cv {
        assert twice[j] == Add(Add(s[j], Sub(p, m)), Sub(q, p));
      }
    }
  }

  /**
   * Translating the connected vertices of the edge `(v1, v2)` moves exactly
   * the vertices welded to either endpoint, all by the same offset.
   */
  lemma EdgeDragMovesBothGroups(s: seq<Vec3>, v1: nat, v2: nat, offset: Vec3)
    requires v1 < |s| && v2 < |s|
    ensures var r := Translated(s, ConnectedVertices(EndpointGroup(s, v1), EndpointGroup(s, v2)), offset);
      && |r| == |s|
      && forall i :: 0 <= i < |s| ==>
           r[i] == if Coincident(s[i], s[v1]) || Coincident(s[i], s[v2]) then Add(s[i], offset) else s[i]
  {
    var g1, g2 := EndpointGroup(s, v1), EndpointGroup(s, v2);
    ConnectedVerticesUnion(g1, g2);
    EndpointGroupIsWeldGroup(s, v1);
    EndpointGroupIsWeldGroup(s, v2);
    forall i | 0 <= i < |s|
      ensures i in ConnectedVertices(g1, g2) <==> Coincident(s[i], s[v1]) || Coincident(s[i], s[v2])
    {
      WeldGroupMembers(s, v1, i);
      WeldGroupMembers(s, v2, i);
    }
  }
}

=== FILE: edges.dfy ===
/**
 * The pickable edge list of the `EdgeLines` component (Scene.tsx): three
 * edges per triangle with their world-space endpoints and midpoints, the
 * highlight test against the edge drag, and the click guard.
 */
module EdgeLines {
  import opened Wrappers
  import opened Vectors
  import opened Welding
  import opened Drags

  /** One entry of `edges`: the raw vertex pair, its world positions and their midpoint. */
  datatype EdgeMarker = EdgeMarker(vertices: (nat, nat), positions: (Vec3, Vec3), midpoint: Vec3)

  /** The corner that follows corner `k` around its triangle. */
  function NextCorner(k: nat): (n: nat)
    ensures n / 3 == k / 3 && n != k
  {
    if k % 3 == 2 then k - 2 else k + 1
  }

  /** Going three times around a triangle returns to the start corner. */
  lemma NextCornerCycles(k: nat)
    ensures NextCorner(NextCorner(NextCorner(k))) == k
  {
  }

  /**
   * What the loops need to stay in bounds: whole triangles, and index
   * entries that name existing vertices.
   */
  predicate Enumerable(count: nat, index: Option<seq<nat>>) {
    match index
    case None => count % 3 == 0
    case Some(ix) => |ix| % 3 == 0 && forall i :: 0 <= i < |ix| ==> ix[i] < count
  }

  /** The number of triangle corners: index entries, or raw vertices when not indexed. */
  function CornerCount(count: nat, index: Option<seq<nat>>): nat {
    if index.Some? then |index.value| else count
  }

  /** The vertex at corner `k`: `indices[k]`, or `k` itself when not indexed. */
  function CornerVertex(count: nat, index: Option<seq<nat>>, k: nat): (v: nat)
    requires Enumerable(count, index) && k < CornerCount(count, index)
    ensures v < count
  {
    if index.Some? then index.value[k] else k
  }

  /** `addEdge`: the marker of the edge from vertex `a` to vertex `b`. */
  function Marker(s: seq<Vec3>, a: nat, b: nat, world: Vec3 -> Vec3): EdgeMarker
    requires a < |s| && b < |s|
  {
    var v1 := world(s[a]);
    var v2 := world(s[b]);
    EdgeMarker((a, b), (v1, v2), Midpoint(v1, v2))
  }

  /**
   * The edge enumeration of `EdgeLines` (Scene.tsx:160-223): edge `k` runs
   * from the vertex at corner `k` to the vertex at the next corner of the
   * same triangle, so each triangle gives its three edges in order and
   * there is one edge per corner. `world` stands for `applyMatrix4(matrixWorld)`.
   */
  method EnumerateEdges(positions: array<Vec3>, index: Option<seq<nat>>, world: Vec3 -> Vec3)
    returns (edges: seq<EdgeMarker>)
    requires Enumerable(positions.Length, index)
    ensures |edges| == CornerCount(positions.Length, index)
    ensures forall k :: 0 <= k < |edges| ==>
      var a := CornerVertex(positions.Length, index, k);
      var b := CornerVertex(positions.Length, index, NextCorner(k));
      edges[k] == Marker(positions[..], a, b, world)
  {
    edges := [];
    var n := CornerCount(positions.Length, index);
    var i := 0;
    while i < n
      invariant 0 <= i <= n && i % 3 == 0
      invariant |edges| == i
      invariant forall k :: 0 <= k < i ==>
        edges[k] == Marker(positions[..], CornerVertex(positions.Length, index, k),
                           CornerVertex(positions.Length, index, NextCorner(k)), world)
    {
      var v0 := CornerVertex(positions.Length, index, i);
      var v1 := CornerVertex(positions.Length, index, i + 1);
      var v2 := CornerVertex(positions.Length, index, i + 2);
      edges := edges + [Marker(positions[..], v0, v1, world)];
      edges := edges + [Marker(positions[..], v1, v2, world)];
      edges := edges + [Marker(positions[..], v2, v0, world)];
      i := i + 3;
    }
  }

  /**
   * Each marker's midpoint lies halfway between its two world positions,
   * and the positions are those of its two vertices.
   */
  lemma MarkerMidpointIsAverage(s: seq<Vec3>, a: nat, b: nat, world: Vec3 -> Vec3)
    requires a < |s| && b < |s|
    ensures var m := Marker(s, a, b, world);
      && m.positions == (world(s[a]), world(s[b]))
      && m.midpoint.x == (m.positions.0.x + m.positions.1.x) / 2.0
      && m.midpoint.y == (m.positions.0.y + m.positions.1.y) / 2.0
      && m.midpoint.z == (m.positions.0.z + m.positions.1.z) / 2.0
  {
  }

  /**
   * `isSelected` (Scene.tsx:285-287): some pair of the edge drag equals
   * `(v1, v2)` in either orientation; false without an edge drag.
   */
  predicate EdgeHighlighted(draggedEdge: Option<EdgeDrag>, v1: nat, v2: nat) {
    draggedEdge.Some? &&
    exists k :: 0 <= k < |draggedEdge.value.indices| &&
      (draggedEdge.value.indices[k] == (v1, v2) || draggedEdge.value.indices[k] == (v2, v1))
  }

  /** The highlight ignores the orientation of the edge. */
  lemma EdgeHighlightSymmetric(draggedEdge: Option<EdgeDrag>, v1: nat, v2: nat)
    ensures EdgeHighlighted(draggedEdge, v1, v2) == EdgeHighlighted(draggedEdge, v2, v1)
    ensures draggedEdge.None? ==> !EdgeHighlighted(draggedEdge, v1, v2)
  {
  }

  /**
   * While the edge `(v1, v2)` is dragged, an edge `(a, b)` is drawn red
   * exactly when its ends coincide with the dragged ends, in either
   * orientation.
   */
  lemma HighlightOfStartedDrag(s: seq<Vec3>, v1: nat, v2: nat, session: EdgeDrag, a: nat, b: nat)
    requires v1 < |s| && v2 < |s| && a < |s| && b < |s|
    requires session.indices == Product(EndpointGroup(s, v1), EndpointGroup(s, v2))
    ensures EdgeHighlighted(Some(session), a, b) <==>
      (Coincident(s[a], s[v1]) && Coincident(s[b], s[v2])) || (Coincident(s[b], s[v1]) && Coincident(s[a], s[v2]))
  {
    var g1, g2 := EndpointGroup(s, v1), EndpointGroup(s, v2);
    EndpointGroupIsWeldGroup(s, v1);
    EndpointGroupIsWeldGroup(s, v2);
    ProductMembers(g1, g2, a, b);
    ProductMembers(g1, g2, b, a);
    WeldGroupMembers(s, v1, a);
    WeldGroupMembers(s, v1, b);
    WeldGroupMembers(s, v2, a);
    WeldGroupMembers(s, v2, b);
    if (a, b) in session.indices {
      var k :| 0 <= k < |session.indices| && session.indices[k] == (a, b);
    }
    if (b, a) in session.indices {
      var k :| 0 <= k < |session.indices| && session.indices[k] == (b, a);
    }
  }

  /**
   * The click-counting state of `EdgeLines` (Scene.tsx:157-158): how many
   * clicks the pending double-click window has seen and whether its timer
   * is pending.
   */
  class EdgeClickState {
    var clickCount: nat
    var timerPending: bool

    constructor ()
      ensures clickCount == 0 && !timerPending
    {
      clickCount := 0;
      timerPending := false;
    }

    /**
     * `handleEdgeClick` (Scene.tsx:259-264, 277): during an edge drag a
     * click changes nothing; otherwise it counts and (re)arms the timer.
     */
    method HandleEdgeClick(isDraggingEdge: bool)
      modifies this
      ensures isDraggingEdge ==> clickCount == old(clickCount) && timerPending == old(timerPending)
      ensures !isDraggingEdge ==> clickCount == old(clickCount) + 1 && timerPending
    {
      if isDraggingEdge {
        return;
      }
      clickCount := clickCount + 1;
      timerPending := true;
    }
  }
}

=== FILE: elements.dfy ===
/** The store's `selectedElements`: three independent lists of element indices. */
module Elements {

  datatype ElementKind = Vertices | Edges | Faces

  datatype SelectedElements = SelectedElements(vertices: seq<int>, edges: seq<int>, faces: seq<int>)
  {
    function Get(kind: ElementKind): seq<int> {
      match kind
      case Vertices => vertices
      case Edges => edges
      case Faces => faces
    }
  }

  /** The selection a new geometry starts with. */
  const NONE_SELECTED := SelectedElements([], [], [])

  /**
   * `setSelectedElements(type, indices)` (sceneStore.ts:135-141): the list
   * of that kind becomes `indices`, the other two stay as they were.
   */
  function SetSelectedElements(sel: SelectedElements, kind: ElementKind, indices: seq<int>): (r: SelectedElements)
    ensures r.Get(kind) == indices
    ensures forall other :: other != kind ==> r.Get(other) == sel.Get(other)
  {
    match kind
    case Vertices => sel.(vertices := indices)
    case Edges => sel.(edges := indices)
    case Faces => sel.(faces := indices)
  }

  /** Setting one kind twice keeps the second list; setting two different kinds commutes. */
  lemma SetSelectedElementsOverrides(sel: SelectedElements, k1: ElementKind, a: seq<int>, k2: ElementKind, b: seq<int>)
    ensures k1 == k2 ==> SetSelectedElements(SetSelectedElements(sel, k1, a), k2, b) == SetSelectedElements(sel, k2, b)
    ensures k1 != k2 ==> SetSelectedElements(SetSelectedElements(sel, k1, a), k2, b)
                         == SetSelectedElements(SetSelectedElements(sel, k2, b), k1, a)
  {
  }
}

=== FILE: meshes.dfy ===
/**
 * The three.js objects the editor manipulates: a mesh object whose
 * `geometry` field can be reassigned, and a geometry that owns a position
 * buffer (one `Vec3` per raw vertex) and, optionally, an index buffer.
 */
module Meshes {
  import opened Wrappers
  import opened Vectors

  /**
   * The generator parameters kept by a primitive geometry. Only the
   * primitives the vertex-count updates look at are told apart; numeric
   * parameters are JavaScript numbers. A cone geometry is a cylinder
   * geometry in three.js (`ConeGeometry` extends `CylinderGeometry`) but
   * keeps one `radius` instead of the two cylinder radii.
   */
  datatype Shape =
    | Cylinder(radiusTop: real, radiusBottom: real, height: real, radialSegments: real,
               heightSegments: real, openEnded: bool, thetaStart: real, thetaLength: real)
    | Cone(radius: real, height: real, radialSegments: real,
           heightSegments: real, openEnded: bool, thetaStart: real, thetaLength: real)
    | Sphere(radius: real, widthSegments: real, heightSegments: real,
             phiStart: real, phiLength: real, thetaStart: real, thetaLength: real)
    | OtherShape

  class Geometry {
    const shape: Shape
    /** `attributes.position`: entry `i` is the local-space position of raw vertex `i`. */
    const position: array<Vec3>
    /** `geometry.index`, when the geometry is indexed. */
    const index: Option<seq<nat>>

    constructor (shape: Shape, vertices: seq<Vec3>, index: Option<seq<nat>>)
      ensures this.shape == shape && this.index == index
      ensures fresh(position) && position[..] == vertices
    {
      this.shape := shape;
      this.index := index;
      position := new Vec3[|vertices|](i requires 0 <= i < |vertices| => vertices[i]);
    }
  }

  /** A scene object; only meshes carry a geometry the editor looks at. */
  class Object3D {
    const isMesh: bool
    var geometry: Geometry

    constructor (isMesh: bool, geometry: Geometry)
      ensures this.isMesh == isMesh && this.geometry == geometry
    {
      this.isMesh := isMesh;
      this.geometry := geometry;
    }
  }
}

=== FILE: registry.dfy ===
/**
 * The scene registry of the store: the list of scene objects and the one
 * selected object. Each operation is the pure state update that the
 * store's `set` callback computes (sceneStore.ts:70-110).
 */
module SceneRegistry {
  import opened Wrappers
  import opened Meshes

  /** One entry of `objects`. */
  datatype Entry = Entry(id: string, obj: Object3D, name: string, visible: bool)

  /** The registry part of the store state; `selected` is compared by object identity. */
  datatype Registry = Registry(objects: seq<Entry>, selected: Object3D?)

  predicate HasId(objs: seq<Entry>, id: string) {
    exists i :: 0 <= i < |objs| && objs[i].id == id
  }

  /** No two entries share an id; fresh ids keep this true. */
  predicate UniqueIds(objs: seq<Entry>) {
    forall i, j :: 0 <= i < j < |objs| ==> objs[i].id != objs[j].id
  }

  /** `objs.find(obj => obj.id === id)`: the first entry with that id. */
  function Find(objs: seq<Entry>, id: string): (r: Option<Entry>)
    ensures r.None? <==> !HasId(objs, id)
    ensures r.Some? ==> exists i :: 0 <= i < |objs| && objs[i] == r.value && objs[i].id == id &&
                                    forall j :: 0 <= j < i ==> objs[j].id != id
  {
    if objs == [] then None
    else if objs[0].id == id then Some(objs[0])
    else
      var r := Find(objs[1..], id);
      assert HasId(objs[1..], id) ==> HasId(objs, id) by {
        if HasId(objs[1..], id) {
          var i :| 0 <= i < |objs[1..]| && objs[1..][i].id == id;
          assert objs[i + 1].id == id;
        }
      }
      assert r.Some? ==> exists i :: 0 <= i < |objs| && objs[i] == r.value && objs[i].id == id &&
                                     forall j :: 0 <= j < i ==> objs[j].id != id by {
        if r.Some? {
          var i :| 0 <= i < |objs[1..]| && objs[1..][i] == r.value && objs[1..][i].id == id &&
                   forall j :: 0 <= j < i ==> objs[1..][j].id != id;
          assert forall j :: 0 <= j < i + 1 ==> objs[j].id != id by {
            forall j | 0 <= j < i + 1 ensures objs[j].id != id {
              if j > 0 { assert objs[j] == objs[1..][j - 1]; }
            }
          }
        }
      }
      r
  }

  /** With unique ids, the entry found is the only one with that id. */
  lemma FindUnique(objs: seq<Entry>, id: string, i: nat)
    requires UniqueIds(objs) && i < |objs| && objs[i].id == id
    ensures Find(objs, id) == Some(objs[i])
  {
  }

  /**
   * `addObject` (sceneStore.ts:70-73): one new visible entry at the end,
   * the earlier entries unchanged and in order, the selection untouched.
   * The fresh id stands for `crypto.randomUUID()`.
   */
  function AddObject(r: Registry, id: string, obj: Object3D, name: string): (r': Registry)
    requires !HasId(r.objects, id)
    ensures |r'.objects| == |r.objects| + 1
    ensures r'.objects[..|r.objects|] == r.objects
    ensures r'.objects[|r.objects|] == Entry(id, obj, name, true)
    ensures UniqueIds(r.objects) ==> UniqueIds(r'.objects)
    ensures r'.selected == r.selected
  {
    Registry(r.objects + [Entry(id, obj, name, true)], r.selected)
  }

  /** `objs.filter(obj => obj.id !== id)` */
  function Without(objs: seq<Entry>, id: string): seq<Entry> {
    if objs == [] then []
    else if objs[0].id == id then Without(objs[1..], id)
    else [objs[0]] + Without(objs[1..], id)
  }

  lemma {:induction false} WithoutMembers(objs: seq<Entry>, id: string)
    ensures forall k :: 0 <= k < |Without(objs, id)| ==> Without(objs, id)[k] in objs && Without(objs, id)[k].id != id
    ensures forall k :: 0 <= k < |objs| && objs[k].id != id ==> objs[k] in Without(objs, id)
  {
    if objs != [] {
      WithoutMembers(objs[1..], id);
      assert objs == [objs[0]] + objs[1..];
      forall k | 0 <= k < |objs| && objs[k].id != id
        ensures objs[k] in Without(objs, id)
      {
        if k > 0 { assert objs[k] == objs[1..][k - 1]; }
      }
    }
  }

  lemma {:induction false} WithoutAbsent(objs: seq<Entry>, id: string)
    ensures !HasId(objs, id) ==> Without(objs, id) == objs
  {
    if objs != [] && !HasId(objs, id) {
      assert !HasId(objs[1..], id) by {
        forall i | 0 <= i < |objs[1..]| ensures objs[1..][i].id != id {
          assert objs[1..][i] == objs[i + 1];
        }
      }
      WithoutAbsent(objs[1..], id);
      assert objs == [objs[0]] + objs[1..];
    }
  }

  lemma {:induction false} WithoutKeepsUnique(objs: seq<Entry>, id: string)
    ensures UniqueIds(objs) ==> UniqueIds(Without(objs, id))
  {
    if objs != [] && UniqueIds(objs) {
      assert UniqueIds(objs[1..]);
      WithoutKeepsUnique(objs[1..], id);
      var tail := Without(objs[1..], id);
      WithoutMembers(objs[1..], id);
      forall k | 0 <= k < |tail|
        ensures tail[k].id != objs[0].id
      {
        var i :| 0 <= i < |objs[1..]| && objs[1..][i] == tail[k];
        assert objs[i + 1] == tail[k];
      }
    }
  }

  /**
   * `removeObject` (sceneStore.ts:75-81): keeps the entries with another id
   * and clears the selection when the entry found for `id` holds the
   * selected object; an unknown id changes nothing.
   */
  function RemoveObject(r: Registry, id: string): (r': Registry)
    ensures forall k :: 0 <= k < |r'.objects| ==> r'.objects[k] in r.objects && r'.objects[k].id != id
    ensures forall k :: 0 <= k < |r.objects| && r.objects[k].id != id ==> r.objects[k] in r'.objects
    ensures !HasId(r.objects, id) ==> r' == r
    ensures UniqueIds(r.objects) ==> UniqueIds(r'.objects)
    ensures r'.selected == r.selected || r'.selected == null
    ensures UniqueIds(r.objects) ==>
      (r'.selected != r.selected <==>
         exists i :: 0 <= i < |r.objects| && r.objects[i].id == id && r.objects[i].obj == r.selected)
  {
    WithoutMembers(r.objects, id);
    WithoutAbsent(r.objects, id);
    WithoutKeepsUnique(r.objects, id);
    var found := Find(r.objects, id);
    Registry(Without(r.objects, id), if found.Some? && found.value.obj == r.selected then null else r.selected)
  }

  /** With unique ids, filtering out the id of slot `i` deletes exactly that slot. */
  lemma {:induction false} WithoutDeletesSlot(objs: seq<Entry>, i: nat)
    requires UniqueIds(objs) && i < |objs|
    ensures Without(objs, objs[i].id) == objs[..i] + objs[i + 1..]
  {
    var id := objs[i].id;
    if i == 0 {
      assert !HasId(objs[1..], id) by {
        forall k | 0 <= k < |objs[1..]| ensures objs[1..][k].id != id {
          assert objs[1..][k] == objs[k + 1];
        }
      }
      WithoutAbsent(objs[1..], id);
      assert objs[..0] + objs[1..] == objs[1..];
    } else {
      assert UniqueIds(objs[1..]);
      WithoutDeletesSlot(objs[1..], i - 1);
      assert objs[1..][i - 1].id == id;
      assert objs[..i] + objs[i + 1..] == [objs[0]] + (objs[1..][..i - 1] + objs[1..][i..]);
    }
  }

  /** Removing a present id deletes exactly its slot; the others keep their order. */
  lemma RemoveObjectDeletesSlot(r: Registry, i: nat)
    requires UniqueIds(r.objects) && i < |r.objects|
    ensures RemoveObject(r, r.objects[i].id).objects == r.objects[..i] + r.objects[i + 1..]
  {
    WithoutDeletesSlot(r.objects, i);
  }

  /** `objs.map(obj => obj.id === id ? { ...obj, visible: !obj.visible } : obj)` */
  function Toggled(objs: seq<Entry>, id: string): seq<Entry> {
    seq(|objs|, i requires 0 <= i < |objs| => if objs[i].id == id then objs[i].(visible := !objs[i].visible) else objs[i])
  }

  /**
   * `toggleVisibility` (sceneStore.ts:87-103): flips `visible` on the
   * entries with that id and nothing else, and clears the selection exactly
   * when that entry was visible (so is now hidden) and holds the selected
   * object.
   */
  function ToggleVisibility(r: Registry, id: string): (r': Registry)
    ensures |r'.objects| == |r.objects|
    ensures forall i :: 0 <= i < |r.objects| ==>
      && r'.objects[i].id == r.objects[i].id
      && r'.objects[i].obj == r.objects[i].obj
      && r'.objects[i].name == r.objects[i].name
      && r'.objects[i].visible == (r.objects[i].visible != (r.objects[i].id == id))
    ensures UniqueIds(r.objects) ==> UniqueIds(r'.objects)
    ensures r'.selected == r.selected || r'.selected == null
    ensures UniqueIds(r.objects) ==>
      (r'.selected != r.selected <==>
         exists i :: 0 <= i < |r.objects| && r.objects[i].id == id && r.objects[i].visible &&
                     r.objects[i].obj == r.selected)
  {
    var updated := Toggled(r.objects, id);
    var toggled := Find(updated, id);
    Registry(updated, if toggled.Some? && !toggled.value.visible && toggled.value.obj == r.selected
                      then null else r.selected)
  }

  /** Making a hidden object visible never clears the selection. */
  lemma ShowingKeepsSelection(r: Registry, i: nat)
    requires UniqueIds(r.objects) && i < |r.objects| && !r.objects[i].visible
    ensures ToggleVisibility(r, r.objects[i].id).selected == r.selected
  {
  }

  /** Toggling the same id twice restores every entry. */
  lemma ToggleTwiceRestores(r: Registry, id: string)
    ensures ToggleVisibility(ToggleVisibility(r, id), id).objects == r.objects
  {
    var once := ToggleVisibility(r, id).objects;
    var twice := ToggleVisibility(ToggleVisibility(r, id), id).objects;
    assert |twice| == |r.objects|;
    forall i | 0 <= i < |r.objects|
      ensures twice[i] == r.objects[i]
    {
    }
  }

  /**
   * `updateObjectName` (sceneStore.ts:105-110): renames the entries with
   * that id in place; ids, objects, flags, order and selection stay.
   */
  function UpdateObjectName(r: Registry, id: string, name: string): (r': Registry)
    ensures |r'.objects| == |r.objects|
    ensures forall i :: 0 <= i < |r.objects| ==>
      && r'.objects[i].id == r.objects[i].id
      && r'.objects[i].obj == r.objects[i].obj
      && r'.objects[i].visible == r.objects[i].visible
      && r'.objects[i].name == if r.objects[i].id == id then name else r.objects[i].name
    ensures UniqueIds(r.objects) ==> UniqueIds(r'.objects)
    ensures r'.selected == r.selected
  {
    Registry(seq(|r.objects|, i requires 0 <= i < |r.objects| =>
                   if r.objects[i].id == id then r.objects[i].(name := name) else r.objects[i]),
             r.selected)
  }
}

=== FILE: store.dfy ===
/**
 * The editor's store (sceneStore.ts): the registry, the element selection
 * and the two drag sessions, with the operations that write the selected
 * mesh's position buffer in place.
 */
module SceneStore {
  import opened Wrappers
  import opened Vectors
  import opened Meshes
  import opened Welding
  import opened Drags
  import opened Elements
  import R = SceneRegistry

  class Store {
    var objects: seq<R.Entry>
    var selectedObject: Object3D?
    var selectedElements: SelectedElements
    /** The three session fields are independent: nothing ties one to another. */
    var draggedVertex: Option<VertexDrag>
    var draggedEdge: Option<EdgeDrag>
    var isDraggingEdge: bool

    /**
     * Every id is fresh when added, so no two entries share one, and
     * `connectedVertices` is a `Set`: each vertex is listed once.
     */
    ghost predicate Valid()
      reads this
    {
      && R.UniqueIds(objects)
      && (draggedEdge.Some? ==> Distinct(draggedEdge.value.connectedVertices))
    }

    /** The initial store state (sceneStore.ts:57-68). */
    constructor ()
      ensures Valid()
      ensures objects == [] && selectedObject == null && selectedElements == NONE_SELECTED
      ensures draggedVertex == None && draggedEdge == None && !isDraggingEdge
    {
      objects := [];
      selectedObject := null;
      selectedElements := NONE_SELECTED;
      draggedVertex := None;
      draggedEdge := None;
      isDraggingEdge := false;
    }

    /** `state.selectedObject instanceof THREE.Mesh` */
    predicate HasMesh()
      reads this
    {
      selectedObject != null && selectedObject.isMesh
    }

    /** The position buffer of the selected mesh. */
    function Buffer(): array<Vec3>
      requires HasMesh()
      reads this, selectedObject
    {
      selectedObject.geometry.position
    }

    /** What a drag update may write: the selected mesh's buffer, if any. */
    function Buffers(): set<object>
      reads this, selectedObject
    {
      if HasMesh() then {Buffer()} else {}
    }

    function RegistryState(): R.Registry
      reads this
    {
      R.Registry(objects, selectedObject)
    }

    // ----- scene registry -----

    method AddObject(id: string, obj: Object3D, name: string)
      requires Valid() && !R.HasId(objects, id)
      modifies this
      ensures Valid()
      ensures RegistryState() == R.AddObject(old(RegistryState()), id, obj, name)
      ensures selectedElements == old(selectedElements) && draggedVertex == old(draggedVertex)
      ensures draggedEdge == old(draggedEdge) && isDraggingEdge == old(isDraggingEdge)
    {
      var r := R.AddObject(RegistryState(), id, obj, name);
      objects, selectedObject := r.objects, r.selected;
    }

    method RemoveObject(id: string)
      requires Valid()
      modifies this
      ensures Valid()
      ensures RegistryState() == R.RemoveObject(old(RegistryState()), id)
      ensures selectedObject != old(selectedObject) <==>
        exists i :: 0 <= i < |old(objects)| && old(objects)[i].id == id && old(objects)[i].obj == old(selectedObject)
      ensures selectedElements == old(selectedElements) && draggedVertex == old(draggedVertex)
      ensures draggedEdge == old(draggedEdge) && isDraggingEdge == old(isDraggingEdge)
    {
      var r := R.RemoveObject(RegistryState(), id);
      objects, selectedObject := r.objects, r.selected;
    }

    method ToggleVisibility(id: string)
      requires Valid()
      modifies this
      ensures Valid()
      ensures RegistryState() == R.ToggleVisibility(old(RegistryState()), id)
      ensures selectedObject != old(selectedObject) <==>
        exists i :: 0 <= i < |old(objects)| && old(objects)[i].id == id && old(objects)[i].visible &&
                    old(objects)[i].obj == old(selectedObject)
      ensures selectedElements == old(selectedElements) && draggedVertex == old(draggedVertex)
      ensures draggedEdge == old(draggedEdge) && isDraggingEdge == old(isDraggingEdge)
    {
      var r := R.ToggleVisibility(RegistryState(), id);
      objects, selectedObject := r.objects, r.selected;
    }

    method UpdateObjectName(id: string, name: string)
      requires Valid()
      modifies this
      ensures Valid()
      ensures RegistryState() == R.UpdateObjectName(old(RegistryState()), id, name)
      ensures selectedElements == old(selectedElements) && draggedVertex == old(draggedVertex)
      ensures draggedEdge == old(draggedEdge) && isDraggingEdge == old(isDraggingEdge)
    {
      var r := R.UpdateObjectName(RegistryState(), id, name);
      objects, selectedObject := r.objects, r.selected;
    }

    /**
     * `setSelectedObject` (sceneStore.ts:83): replaces the selection
     * outright, without checking the object list and without touching the
     * element selection or the drag sessions.
     */
    method SetSelectedObject(obj: Object3D?)
      requires Valid()
      modifies this
      ensures Valid()
      ensures selectedObject == obj && objects == old(objects)
      ensures selectedElements == old(selectedElements) && draggedVertex == old(draggedVertex)
      ensures draggedEdge == old(draggedEdge) && isDraggingEdge == old(isDraggingEdge)
    {
      selectedObject := obj;
    }

    // ----- element selection -----

    method SetSelectedElements(kind: ElementKind, indices: seq<int>)
      requires Valid()
      modifies this
      ensures Valid()
      ensures selectedElements == Elements.SetSelectedElements(old(selectedElements), kind, indices)
      ensures objects == old(objects) && selectedObject == old(selectedObject)
      ensures draggedVertex == old(draggedVertex) && draggedEdge == old(draggedEdge)
      ensures isDraggingEdge == old(isDraggingEdge)
    {
      selectedElements := Elements.SetSelectedElements(selectedElements, kind, indices);
    }

    // ----- vertex drag -----

    /**
     * `startVertexDrag` (sceneStore.ts:143-178): with a mesh selected, the
     * session holds the weld group of `index` and the picked position, and
     * the group becomes the vertex selection; otherwise nothing changes.
     */
    method StartVertexDrag(index: nat, position: Vec3)
      requires Valid()
      modifies this
      ensures Valid()
      ensures objects == old(objects) && selectedObject == old(selectedObject)
      ensures draggedEdge == old(draggedEdge) && isDraggingEdge == old(isDraggingEdge)
      ensures !HasMesh() ==> selectedElements == old(selectedElements) && draggedVertex == old(draggedVertex)
      ensures HasMesh() ==>
        var group := WeldGroup(Buffer()[..], index);
        && draggedVertex == Some(VertexDrag(group, position, position))
        && selectedElements == old(selectedElements).(vertices := group)
    {
      if !HasMesh() {
        return;
      }
      var overlapping := CollectOverlapping(Buffer(), index);
      draggedVertex := Some(VertexDrag(overlapping, position, position));
      selectedElements := selectedElements.(vertices := overlapping);
    }

    /**
     * `updateVertexDrag` (sceneStore.ts:180-205): with a vertex drag active
     * and a mesh selected, every index of the session's group is set to
     * `position` exactly as given, the rest of the buffer stays, and the
     * session's `position` follows; otherwise nothing changes.
     */
    method UpdateVertexDrag(position: Vec3)
      requires Valid()
      modifies this, Buffers()
      ensures Valid()
      ensures objects == old(objects) && selectedObject == old(selectedObject)
      ensures selectedElements == old(selectedElements) && draggedEdge == old(draggedEdge)
      ensures isDraggingEdge == old(isDraggingEdge)
      ensures old(draggedVertex).Some? && old(HasMesh()) ==>
        && draggedVertex == Some(old(draggedVertex).value.(position := position))
        && Buffer()[..] == Overwritten(old(Buffer()[..]), old(draggedVertex).value.indices, position)
      ensures old(draggedVertex).None? || !old(HasMesh()) ==>
        && draggedVertex == old(draggedVertex)
        && (old(HasMesh()) ==> Buffer()[..] == old(Buffer()[..]))
    {
      if draggedVertex.None? || !HasMesh() {
        return;
      }
      var positions := Buffer();
      var indices := draggedVertex.value.indices;
      var k := 0;
      while k < |indices|
        modifies positions
        invariant 0 <= k <= |indices|
        invariant forall j :: 0 <= j < positions.Length ==>
          positions[j] == if j in indices[..k] then position else old(positions[j])
      {
        if indices[k] < positions.Length {
          positions[indices[k]] := position;
        }
        k := k + 1;
      }
      assert indices[..k] == indices;
      draggedVertex := Some(draggedVertex.value.(position := position));
    }

    /** `endVertexDrag` (sceneStore.ts:207): ends the vertex session and nothing else. */
    method EndVertexDrag()
      requires Valid()
      modifies this
      ensures Valid()
      ensures draggedVertex == None
      ensures objects == old(objects) && selectedObject == old(selectedObject)
      ensures selectedElements == old(selectedElements) && draggedEdge == old(draggedEdge)
      ensures isDraggingEdge == old(isDraggingEdge)
    {
      draggedVertex := None;
    }

    // ----- edge drag -----

    /**
     * `startEdgeDrag` (sceneStore.ts:209-271): with a mesh selected, the
     * session holds every pair of the two endpoint groups, the union of the
     * groups and the given anchor, and the union becomes the edge selection;
     * otherwise nothing changes.
     */
    method StartEdgeDrag(vertexIndices: (nat, nat), positions: seq<Vec3>, midpoint: Vec3)
      requires Valid()
      modifies this
      ensures Valid()
      ensures objects == old(objects) && selectedObject == old(selectedObject)
      ensures draggedVertex == old(draggedVertex) && isDraggingEdge == old(isDraggingEdge)
      ensures !HasMesh() ==> selectedElements == old(selectedElements) && draggedEdge == old(draggedEdge)
      ensures HasMesh() ==>
        var g1 := EndpointGroup(Buffer()[..], vertexIndices.0);
        var g2 := EndpointGroup(Buffer()[..], vertexIndices.1);
        && draggedEdge == Some(EdgeDrag(Product(g1, g2), positions, positions, ConnectedVertices(g1, g2), midpoint))
        && selectedElements == old(selectedElements).(edges := ConnectedVertices(g1, g2))
    {
      if !HasMesh() {
        return;
      }
      var vertex1Overlapping := FindOverlappingVertices(Buffer(), vertexIndices.0);
      var vertex2Overlapping := FindOverlappingVertices(Buffer(), vertexIndices.1);
      var connectedVertices := CollectConnected(vertex1Overlapping, vertex2Overlapping);
      var edges := PairUp(vertex1Overlapping, vertex2Overlapping);
      ConnectedVerticesUnion(vertex1Overlapping, vertex2Overlapping);
      draggedEdge := Some(EdgeDrag(edges, positions, positions, connectedVertices, midpoint));
      selectedElements := selectedElements.(edges := connectedVertices);
    }

    /**
     * `updateEdgeDrag` (sceneStore.ts:273-301): with an edge drag active and
     * a mesh selected, every connected vertex moves by `position` minus the
     * session's anchor, the rest of the buffer stays, and the anchor becomes
     * `position`; otherwise nothing changes.
     */
    method UpdateEdgeDrag(position: Vec3)
      requires Valid()
      modifies this, Buffers()
      ensures Valid()
      ensures objects == old(objects) && selectedObject == old(selectedObject)
      ensures selectedElements == old(selectedElements) && draggedVertex == old(draggedVertex)
      ensures isDraggingEdge == old(isDraggingEdge)
      ensures old(draggedEdge).Some? && old(HasMesh()) ==>
        var session := old(draggedEdge).value;
        && draggedEdge == Some(session.(midpoint := position))
        && Buffer()[..] == Translated(old(Buffer()[..]), session.connectedVertices, Sub(position, session.midpoint))
      ensures old(draggedEdge).None? || !old(HasMesh()) ==>
        && draggedEdge == old(draggedEdge)
        && (old(HasMesh()) ==> Buffer()[..] == old(Buffer()[..]))
    {
      if draggedEdge.None? || !HasMesh() {
        return;
      }
      var positions := Buffer();
      var connected := draggedEdge.value.connectedVertices;
      var offset := Sub(position, draggedEdge.value.midpoint);
      var k := 0;
      while k < |connected|
        modifies positions
        invariant 0 <= k <= |connected|
        invariant forall j :: 0 <= j < positions.Length ==>
          positions[j] == if j in connected[..k] then Add(old(positions[j]), offset) else old(positions[j])
      {
        var v := connected[k];
        if v < positions.Length {
          assert v !in connected[..k];
          positions[v] := Add(positions[v], offset);
        }
        assert connected[..k + 1] == connected[..k] + [v];
        k := k + 1;
      }
      assert connected[..k] == connected;
      draggedEdge := Some(draggedEdge.value.(midpoint := position));
    }

    /** `endEdgeDrag` (sceneStore.ts:303): ends the edge session and nothing else. */
    method EndEdgeDrag()
      requires Valid()
      modifies this
      ensures Valid()
      ensures draggedEdge == None
      ensures objects == old(objects) && selectedObject == old(selectedObject)
      ensures selectedElements == old(selectedElements) && draggedVertex == old(draggedVertex)
      ensures isDraggingEdge == old(isDraggingEdge)
    {
      draggedEdge := None;
    }

    /** `setIsDraggingEdge` (sceneStore.ts:305) */
    method SetIsDraggingEdge(isDragging: bool)
      requires Valid()
      modifies this
      ensures Valid()
      ensures isDraggingEdge == isDragging
      ensures objects == old(objects) && selectedObject == old(selectedObject)
      ensures selectedElements == old(selectedElements) && draggedVertex == old(draggedVertex)
      ensures draggedEdge == old(draggedEdge)
    {
      isDraggingEdge := isDragging;
    }

    // ----- vertex count -----

    /** `geometry instanceof THREE.CylinderGeometry`, which a cone geometry also passes. */
    predicate IsCylinder()
      reads this, selectedObject
    {
      HasMesh() && (selectedObject.geometry.shape.Cylinder? || selectedObject.geometry.shape.Cone?)
    }

    predicate IsSphere()
      reads this, selectedObject
    {
      HasMesh() && selectedObject.geometry.shape.Sphere?
    }

    /**
     * `updateCylinderVertices` (sceneStore.ts:307-337): a selected cylinder
     * gets a new geometry with `vertexCount` radial segments and its other
     * parameters carried over, and all three selection lists become empty;
     * anything else is left alone. The drag sessions are not touched.
     * A selected cone passes the same test, but has no `radiusTop` or
     * `radiusBottom` to carry over: the new cylinder gets the generator's
     * default radius 1 at both ends. `rebuilt` and `rebuiltIndex` are the
     * buffers the three.js generator produces for the new parameters.
     */
    method UpdateCylinderVertices(vertexCount: int, rebuilt: seq<Vec3>, rebuiltIndex: Option<seq<nat>>)
      requires Valid()
      modifies this, selectedObject
      ensures Valid()
      ensures objects == old(objects) && selectedObject == old(selectedObject)
      ensures draggedVertex == old(draggedVertex) && draggedEdge == old(draggedEdge)
      ensures isDraggingEdge == old(isDraggingEdge)
      ensures !old(IsCylinder()) ==>
        selectedElements == old(selectedElements) && (selectedObject != null ==> unchanged(selectedObject))
      ensures old(IsCylinder()) ==>
        && selectedElements == NONE_SELECTED
        && fresh(selectedObject.geometry) && fresh(Buffer())
        && Buffer()[..] == rebuilt && selectedObject.geometry.index == rebuiltIndex
      ensures old(IsCylinder()) && old(selectedObject.geometry.shape).Cylinder? ==>
        var c := old(selectedObject.geometry.shape);
        selectedObject.geometry.shape == Cylinder(c.radiusTop, c.radiusBottom, c.height, vertexCount as real,
                                                  c.heightSegments, c.openEnded, c.thetaStart, c.thetaLength)
      ensures old(IsCylinder()) && old(selectedObject.geometry.shape).Cone? ==>
        var cone := old(selectedObject.geometry.shape);
        selectedObject.geometry.shape == Cylinder(1.0, 1.0, cone.height, vertexCount as real, cone.heightSegments,
                                                  cone.openEnded, cone.thetaStart, cone.thetaLength)
    {
      if !IsCylinder() {
        return;
      }
      var oldShape := selectedObject.geometry.shape;
      var radiusTop, radiusBottom := if oldShape.Cylinder? then oldShape.radiusTop else 1.0,
                                     if oldShape.Cylinder? then oldShape.radiusBottom else 1.0;
      var newShape := Cylinder(radiusTop, radiusBottom, oldShape.height, vertexCount as real, oldShape.heightSegments,
                               oldShape.openEnded, oldShape.thetaStart, oldShape.thetaLength);
      var newGeometry := new Geometry(newShape, rebuilt, rebuiltIndex);
      selectedObject.geometry := newGeometry;
      selectedElements := NONE_SELECTED;
    }

    /**
     * `updateSphereVertices` (sceneStore.ts:339-368): a selected sphere gets
     * a new geometry with `vertexCount` width segments and half as many
     * height segments, its other parameters carried over, and all three
     * selection lists become empty; anything else is left alone.
     */
    method UpdateSphereVertices(vertexCount: int, rebuilt: seq<Vec3>, rebuiltIndex: Option<seq<nat>>)
      requires Valid()
      modifies this, selectedObject
      ensures Valid()
      ensures objects == old(objects) && selectedObject == old(selectedObject)
      ensures draggedVertex == old(draggedVertex) && draggedEdge == old(draggedEdge)
      ensures isDraggingEdge == old(isDraggingEdge)
      ensures !old(IsSphere()) ==>
        selectedElements == old(selectedElements) && (selectedObject != null ==> unchanged(selectedObject))
      ensures old(IsSphere()) ==>
        && selectedElements == NONE_SELECTED
        && fresh(selectedObject.geometry) && fresh(Buffer())
        && (var sphere := old(selectedObject.geometry.shape);
            selectedObject.geometry.shape == Sphere(sphere.radius, vertexCount as real, vertexCount as real / 2.0,
                                                    sphere.phiStart, sphere.phiLength, sphere.thetaStart, sphere.thetaLength))
        && Buffer()[..] == rebuilt && selectedObject.geometry.index == rebuiltIndex
    {
      if !IsSphere() {
        return;
      }
      var oldShape := selectedObject.geometry.shape;
      var newShape := Sphere(oldShape.radius, vertexCount as real, vertexCount as real / 2.0,
                             oldShape.phiStart, oldShape.phiLength, oldShape.thetaStart, oldShape.thetaLength);
      var newGeometry := new Geometry(newShape, rebuilt, rebuiltIndex);
      selectedObject.geometry := newGeometry;
      selectedElements := NONE_SELECTED;
    }
  }
}

=== FILE: vectors.dfy ===
/**
 * Points and offsets in 3-space, as three.js `Vector3` values with real
 * coordinates, and the weld tolerance used when a drag starts.
 */
module Vectors {

  datatype Vec3 = Vec3(x: real, y: real, z: real)

  /** `a.clone().add(b)` */
  function Add(a: Vec3, b: Vec3): Vec3 {
    Vec3(a.x + b.x, a.y + b.y, a.z + b.z)
  }

  /** `a.clone().sub(b)` */
  function Sub(a: Vec3, b: Vec3): Vec3 {
    Vec3(a.x - b.x, a.y - b.y, a.z - b.z)
  }

  /** `a.clone().multiplyScalar(k)` */
  function Scale(a: Vec3, k: real): Vec3 {
    Vec3(k * a.x, k * a.y, k * a.z)
  }

  /** `a.clone().add(b).multiplyScalar(0.5)`: the point halfway between `a` and `b`. */
  function Midpoint(a: Vec3, b: Vec3): (m: Vec3)
    ensures Sub(m, a) == Sub(b, m)
  {
    Scale(Add(a, b), 0.5)
  }

  const ORIGIN := Vec3(0.0, 0.0, 0.0)

  /**
   * `new THREE.Vector3(positions.getX(i), positions.getY(i), positions.getZ(i))`:
   * past either end of the buffer each coordinate reads `undefined`, and the
   * `Vector3` constructor replaces `undefined` by its default 0.
   */
  function ReadVertex(s: seq<Vec3>, i: int): Vec3 {
    if 0 <= i < |s| then s[i] else ORIGIN
  }

  /** Squared Euclidean distance: the square of `a.distanceTo(b)`. */
  function SqDist(a: Vec3, b: Vec3): (d: real)
    ensures d >= 0.0
  {
    var v := Sub(a, b);
    v.x * v.x + v.y * v.y + v.z * v.z
  }

  /** The weld tolerance 0.0001, squared, so that no square root is needed. */
  const WELD_TOLERANCE_SQ: real := 0.00000001

  /**
   * `a.distanceTo(b) < 0.0001`: two vertices occupy the same place. Both
   * sides of the comparison are non-negative, so comparing squares is exact.
   */
  predicate Coincident(a: Vec3, b: Vec3) {
    SqDist(a, b) < WELD_TOLERANCE_SQ
  }

  lemma CoincidentReflexive(a: Vec3)
    ensures Coincident(a, a)
  {
  }

  lemma CoincidentSymmetric(a: Vec3, b: Vec3)
    ensures Coincident(a, b) == Coincident(b, a)
  {
    var u, v := Sub(a, b), Sub(b, a);
    assert u.x * u.x == v.x * v.x && u.y * u.y == v.y * v.y && u.z * u.z == v.z * v.z;
  }

  /** Moving two points by the same offset keeps their distance. */
  lemma TranslationKeepsDistance(a: Vec3, b: Vec3, offset: Vec3)
    ensures SqDist(Add(a, offset), Add(b, offset)) == SqDist(a, b)
  {
    assert Sub(Add(a, offset), Add(b, offset)) == Sub(a, b);
  }
}

=== FILE: view.dfy ===
/**
 * What the `Scene` component derives from the store for display: the
 * colour of a vertex marker and the position the coordinate panel shows.
 */
module SceneView {
  import opened Wrappers
  import opened Vectors
  import opened Welding
  import opened Drags
  import opened Elements

  datatype Colour = Red | Yellow

  datatype EditMode = VertexMode | EdgeMode | FaceMode | NormalMode | NoEditMode

  /** The coordinate panel: hidden (`selectedPosition` is null) or showing a position. */
  datatype Panel = Hidden | Showing(position: Vec3)

  /** The colour of the marker of vertex `i` (Scene.tsx:139). */
  function VertexMarkerColour(selected: SelectedElements, i: nat): Colour {
    if i in selected.vertices then Red else Yellow
  }

  /**
   * Right after a vertex drag starts at `k`, the red markers are exactly the
   * vertices that coincide with what reading `k` gives.
   */
  lemma RedMarkersAreWeldGroup(s: seq<Vec3>, k: nat, selected: SelectedElements, i: nat)
    requires selected.vertices == WeldGroup(s, k)
    ensures VertexMarkerColour(selected, i) == Red <==> i < |s| && Coincident(s[i], ReadVertex(s, k))
  {
    WeldGroupMembers(s, k, i);
  }

  /**
   * `selectedPosition` (Scene.tsx:390-411). `mesh` is the position buffer
   * of the selected object when that object is a mesh, and `world` stands
   * for `applyMatrix4(matrixWorld)`. The first selected vertex is read
   * as the buffer read gives it, so an index past the end shows the
   * transformed origin.
   */
  function DisplayedPosition(mode: EditMode, mesh: Option<seq<Vec3>>, draggedVertex: Option<VertexDrag>,
                             vertices: seq<int>, world: Vec3 -> Vec3): (panel: Panel)
    ensures panel == Hidden <==> mode != VertexMode || mesh.None? || (draggedVertex.None? && vertices == [])
    ensures mode == VertexMode && mesh.Some? && draggedVertex.None? && vertices != [] ==>
      && (0 <= vertices[0] < |mesh.value| ==> panel == Showing(world(mesh.value[vertices[0]])))
      && (!(0 <= vertices[0] < |mesh.value|) ==> panel == Showing(world(ORIGIN)))
  {
    if mode == VertexMode && mesh.Some? then
      if draggedVertex.Some? then Showing(draggedVertex.value.position)
      else if |vertices| > 0 then Showing(world(ReadVertex(mesh.value, vertices[0])))
      else Hidden
    else Hidden
  }

  /** During a vertex drag the panel follows the drag, whatever is selected. */
  lemma PanelFollowsDrag(s: seq<Vec3>, session: VertexDrag, vertices: seq<int>, world: Vec3 -> Vec3)
    ensures DisplayedPosition(VertexMode, Some(s), Some(session), vertices, world) == Showing(session.position)
  {
  }

  /**
   * After a vertex is picked at `k` and released without moving, the panel
   * shows the world position of the lowest-numbered vertex of the group:
   * a vertex at or before `k` that coincides with `k`, with no vertex
   * before it coinciding with `k`.
   */
  lemma PanelAfterPickShowsWeldedVertex(s: seq<Vec3>, k: nat, world: Vec3 -> Vec3)
    requires k < |s|
    ensures var g := WeldGroup(s, k);
      && |g| > 0 && g[0] <= k && Coincident(s[g[0]], s[k])
      && (forall i :: 0 <= i < g[0] ==> !Coincident(s[i], s[k]))
      && DisplayedPosition(VertexMode, Some(s), None, g, world) == Showing(world(s[g[0]]))
  {
    var g := WeldGroup(s, k);
    WeldGroupReflexive(s, k);
    WeldGroupOrdered(s, k);
    WeldGroupMembers(s, k, g[0]);
    var j :| 0 <= j < |g| && g[j] == k;
    assert g[0] <= k by {
      if j > 0 { assert g[0] < g[j]; }
    }
    forall i | 0 <= i < g[0]
      ensures !Coincident(s[i], s[k])
    {
      WeldGroupMembers(s, k, i);
    }
  }

  /**
   * After the weld group of `k` has been dragged to `p` and released, the
   * panel shows `world(p)`: the transform is applied on top of the point
   * the drag wrote, which the caller gives in world space.
   */
  lemma PanelAfterDragShowsDropPoint(s: seq<Vec3>, k: nat, p: Vec3, world: Vec3 -> Vec3)
    requires k < |s|
    ensures DisplayedPosition(VertexMode, Some(Overwritten(s, WeldGroup(s, k), p)), None, WeldGroup(s, k), world)
            == Showing(world(p))
  {
    var g := WeldGroup(s, k);
    WeldGroupReflexive(s, k);
    assert g[0] in g;
    WeldGroupMembers(s, k, g[0]);
  }
}

=== FILE: welding.dfy ===
/**
 * Weld groups: the raw vertices that sit (within tolerance) where a picked
 * vertex sits. Both drag sessions recompute them from the current position
 * buffer when a drag starts (sceneStore.ts, `startVertexDrag` and the
 * `findOverlappingVertices` helper of `startEdgeDrag`), and an edge drag
 * combines the groups of its two endpoints.
 */
module Welding {
  import opened Wrappers
  import opened Vectors

  predicate StrictlyIncreasing(xs: seq<nat>) {
    forall i, j :: 0 <= i < j < |xs| ==> xs[i] < xs[j]
  }

  predicate Distinct<T(==)>(xs: seq<T>) {
    forall i, j :: 0 <= i < j < |xs| ==> xs[i] != xs[j]
  }

  /** Whether a scan that skips `skip` looks at index `i`. */
  predicate Scanned(skip: Option<nat>, i: int) {
    skip.None? || i != skip.value
  }

  /**
   * The indices below `n`, other than `skip`, whose position coincides with
   * `p`, in increasing order: what a scan of the first `n` vertices pushes.
   */
  function Scan(s: seq<Vec3>, p: Vec3, n: nat, skip: Option<nat>): (r: seq<nat>)
    requires n <= |s|
    ensures forall k :: 0 <= k < |r| ==> r[k] < n && Scanned(skip, r[k])
  {
    if n == 0 then []
    else Scan(s, p, n - 1, skip) + (if Scanned(skip, n - 1) && Coincident(s[n - 1], p) then [n - 1] else [])
  }

  /**
   * The weld group of vertex `k`, as `startVertexDrag` lists it. An index
   * past the end reads as the origin, so its group is every vertex at the
   * origin.
   */
  function WeldGroup(s: seq<Vec3>, k: nat): seq<nat> {
    Scan(s, ReadVertex(s, k), |s|, None)
  }

  /**
   * The weld group of edge endpoint `t`, as `findOverlappingVertices` lists
   * it: `t` first, then every other vertex that coincides with what reading
   * `t` gives.
   */
  function EndpointGroup(s: seq<Vec3>, t: nat): seq<nat> {
    [t] + Scan(s, ReadVertex(s, t), |s|, Some(t))
  }

  lemma {:induction false} ScanMembers(s: seq<Vec3>, p: Vec3, n: nat, skip: Option<nat>, i: int)
    requires n <= |s|
    ensures i in Scan(s, p, n, skip) <==> 0 <= i < n && Scanned(skip, i) && Coincident(s[i], p)
  {
    if n > 0 {
      ScanMembers(s, p, n - 1, skip, i);
    }
  }

  lemma {:induction false} ScanIncreasing(s: seq<Vec3>, p: Vec3, n: nat, skip: Option<nat>)
    requires n <= |s|
    ensures StrictlyIncreasing(Scan(s, p, n, skip))
  {
    if n > 0 {
      ScanIncreasing(s, p, n - 1, skip);
    }
  }

  /**
   * A vertex is in the weld group of `k` exactly when it coincides with
   * what reading `k` gives: vertex `k` itself, or the origin past the end.
   */
  lemma WeldGroupMembers(s: seq<Vec3>, k: nat, i: int)
    ensures i in WeldGroup(s, k) <==> 0 <= i < |s| && Coincident(s[i], ReadVertex(s, k))
  {
    ScanMembers(s, ReadVertex(s, k), |s|, None, i);
  }

  /** The picked vertex is in its own weld group. */
  lemma WeldGroupReflexive(s: seq<Vec3>, k: nat)
    requires k < |s|
    ensures k in WeldGroup(s, k)
  {
    WeldGroupMembers(s, k, k);
    CoincidentReflexive(s[k]);
  }

  /** Weld-group membership is symmetric. */
  lemma WeldGroupSymmetric(s: seq<Vec3>, i: nat, j: nat)
    requires i < |s| && j < |s|
    ensures i in WeldGroup(s, j) <==> j in WeldGroup(s, i)
  {
    WeldGroupMembers(s, j, i);
    WeldGroupMembers(s, i, j);
    CoincidentSymmetric(s[i], s[j]);
  }

  /** The weld group lists its members once each, in increasing index order. */
  lemma WeldGroupOrdered(s: seq<Vec3>, k: nat)
    ensures StrictlyIncreasing(WeldGroup(s, k)) && Distinct(WeldGroup(s, k))
  {
    ScanIncreasing(s, ReadVertex(s, k), |s|, None);
  }

  /**
   * An endpoint group starts with the endpoint, has no repeats, and holds
   * the endpoint and its weld group; for an endpoint inside the buffer that
   * is exactly its weld group.
   */
  lemma EndpointGroupIsWeldGroup(s: seq<Vec3>, t: nat)
    ensures EndpointGroup(s, t)[0] == t
    ensures Distinct(EndpointGroup(s, t))
    ensures forall i :: i in EndpointGroup(s, t) <==> i == t || i in WeldGroup(s, t)
    ensures t < |s| ==> forall i :: i in EndpointGroup(s, t) <==> i in WeldGroup(s, t)
  {
    ScanIncreasing(s, ReadVertex(s, t), |s|, Some(t));
    forall i
      ensures i in EndpointGroup(s, t) <==> i == t || i in WeldGroup(s, t)
    {
      ScanMembers(s, ReadVertex(s, t), |s|, Some(t), i);
      WeldGroupMembers(s, t, i);
    }
    if t < |s| {
      WeldGroupReflexive(s, t);
    }
  }

  /** The scan loop of `startVertexDrag` (sceneStore.ts:150-165). */
  method CollectOverlapping(positions: array<Vec3>, index: nat) returns (overlapping: seq<nat>)
    ensures overlapping == WeldGroup(positions[..], index)
  {
    var selectedPos := if index < positions.Length then positions[index] else ORIGIN;
    overlapping := [];
    var i := 0;
    while i < positions.Length
      invariant 0 <= i <= positions.Length
      invariant overlapping == Scan(positions[..], selectedPos, i, None)
    {
      if Coincident(positions[i], selectedPos) {
        overlapping := overlapping + [i];
      }
      i := i + 1;
    }
  }

  /** `findOverlappingVertices` inside `startEdgeDrag` (sceneStore.ts:219-241). */
  method FindOverlappingVertices(positions: array<Vec3>, targetIndex: nat) returns (overlapping: seq<nat>)
    ensures overlapping == EndpointGroup(positions[..], targetIndex)
  {
    var targetPos := if targetIndex < positions.Length then positions[targetIndex] else ORIGIN;
    overlapping := [targetIndex];
    var i := 0;
    while i < positions.Length
      invariant 0 <= i <= positions.Length
      invariant overlapping == [targetIndex] + Scan(positions[..], targetPos, i, Some(targetIndex))
    {
      if i != targetIndex && Coincident(positions[i], targetPos) {
        overlapping := overlapping + [i];
      }
      i := i + 1;
    }
  }

  /** `set.add(x)` on an insertion-ordered JavaScript `Set`. */
  function Insert(acc: seq<nat>, x: nat): seq<nat> {
    if x in acc then acc else acc + [x]
  }

  /** Adding every element of `xs`, in order, to the set `acc`. */
  function InsertAll(acc: seq<nat>, xs: seq<nat>): seq<nat>
    decreases |xs|
  {
    if xs == [] then acc else Insert(InsertAll(acc, xs[..|xs| - 1]), xs[|xs| - 1])
  }

  /** `connectedVertices` of an edge drag: the endpoint groups added to an empty set. */
  function ConnectedVertices(g1: seq<nat>, g2: seq<nat>): seq<nat> {
    InsertAll(InsertAll([], g1), g2)
  }

  lemma {:induction false} InsertAllMembers(acc: seq<nat>, xs: seq<nat>, x: nat)
    ensures x in InsertAll(acc, xs) <==> x in acc || x in xs
    decreases |xs|
  {
    if xs != [] {
      var init := xs[..|xs| - 1];
      InsertAllMembers(acc, init, x);
      assert xs == init + [xs[|xs| - 1]];
    }
  }

  lemma {:induction false} InsertAllDistinct(acc: seq<nat>, xs: seq<nat>)
    requires Distinct(acc)
    ensures Distinct(InsertAll(acc, xs))
    decreases |xs|
  {
    if xs != [] {
      InsertAllDistinct(acc, xs[..|xs| - 1]);
    }
  }

  /**
   * The connected vertices are the union of the two endpoint groups, each
   * listed once.
   */
  lemma ConnectedVerticesUnion(g1: seq<nat>, g2: seq<nat>)
    ensures forall x :: x in ConnectedVertices(g1, g2) <==> x in g1 || x in g2
    ensures Distinct(ConnectedVertices(g1, g2))
  {
    forall x
      ensures x in ConnectedVertices(g1, g2) <==> x in g1 || x in g2
    {
      InsertAllMembers([], g1, x);
      InsertAllMembers(InsertAll([], g1), g2, x);
    }
    InsertAllDistinct([], g1);
    InsertAllDistinct(InsertAll([], g1), g2);
  }

  /** The two `forEach(v => connectedVertices.add(v))` loops (sceneStore.ts:248-249). */
  method CollectConnected(g1: seq<nat>, g2: seq<nat>) returns (connected: seq<nat>)
    ensures connected == ConnectedVertices(g1, g2)
  {
    connected := [];
    var i := 0;
    while i < |g1|
      invariant 0 <= i <= |g1|
      invariant connected == InsertAll([], g1[..i])
    {
      assert g1[..i + 1][..i] == g1[..i];
      connected := Insert(connected, g1[i]);
      i := i + 1;
    }
    assert g1[..i] == g1;
    var j := 0;
    while j < |g2|
      invariant 0 <= j <= |g2|
      invariant connected == InsertAll(InsertAll([], g1), g2[..j])
    {
      assert g2[..j + 1][..j] == g2[..j];
      connected := Insert(connected, g2[j]);
      j := j + 1;
    }
    assert g2[..j] == g2;
  }

  /** The pairs `[a, b]` for one `a` and every `b` in `ys`, in order. */
  function Row(a: nat, ys: seq<nat>): seq<(nat, nat)> {
    seq(|ys|, j requires 0 <= j < |ys| => (a, ys[j]))
  }

  /** The weld-expanded edge: every pair of an `xs` member with a `ys` member, row by row. */
  function Product(xs: seq<nat>, ys: seq<nat>): seq<(nat, nat)>
    decreases |xs|
  {
    if xs == [] then [] else Product(xs[..|xs| - 1], ys) + Row(xs[|xs| - 1], ys)
  }

  lemma {:induction false} ProductSize(xs: seq<nat>, ys: seq<nat>)
    ensures |Product(xs, ys)| == |xs| * |ys|
    decreases |xs|
  {
    if xs != [] {
      ProductSize(xs[..|xs| - 1], ys);
      assert (|xs| - 1) * |ys| + |ys| == |xs| * |ys|;
    }
  }

  lemma {:induction false} ProductMembers(xs: seq<nat>, ys: seq<nat>, a: nat, b: nat)
    ensures (a, b) in Product(xs, ys) <==> a in xs && b in ys
    decreases |xs|
  {
    if xs != [] {
      var init := xs[..|xs| - 1];
      ProductMembers(init, ys, a, b);
      assert xs == init + [xs[|xs| - 1]];
      if (a, b) in Row(xs[|xs| - 1], ys) {
        var j :| 0 <= j < |ys| && Row(xs[|xs| - 1], ys)[j] == (a, b);
      }
      if a == xs[|xs| - 1] && b in ys {
        var j :| 0 <= j < |ys| && ys[j] == b;
        assert Row(a, ys)[j] == (a, b);
      }
    }
  }

  lemma DistinctConcat<T>(u: seq<T>, v: seq<T>)
    requires Distinct(u) && Distinct(v)
    requires forall x :: x in u ==> x !in v
    ensures Distinct(u + v)
  {
    forall i, j | 0 <= i < j < |u + v|
      ensures (u + v)[i] != (u + v)[j]
    {
      if i < |u| && j >= |u| {
        assert (u + v)[i] in u && (u + v)[j] in v;
      }
    }
  }

  /** With repeat-free groups, every pair of the product occurs once. */
  lemma {:induction false} ProductDistinct(xs: seq<nat>, ys: seq<nat>)
    requires Distinct(xs) && Distinct(ys)
    ensures Distinct(Product(xs, ys))
    decreases |xs|
  {
    if xs != [] {
      var init, last := xs[..|xs| - 1], xs[|xs| - 1];
      ProductDistinct(init, ys);
      forall p | p in Product(init, ys)
        ensures p !in Row(last, ys)
      {
        ProductMembers(init, ys, p.0, p.1);
      }
      DistinctConcat(Product(init, ys), Row(last, ys));
    }
  }

  /** The nested `forEach` that pushes `[v1, v2]` into `edges` (sceneStore.ts:252-256). */
  method PairUp(g1: seq<nat>, g2: seq<nat>) returns (edges: seq<(nat, nat)>)
    ensures edges == Product(g1, g2)
  {
    edges := [];
    var i := 0;
    while i < |g1|
      invariant 0 <= i <= |g1|
      invariant edges == Product(g1[..i], g2)
    {
      var j := 0;
      while j < |g2|
        invariant 0 <= j <= |g2|
        invariant edges == Product(g1[..i], g2) + Row(g1[i], g2[..j])
      {
        edges := edges + [(g1[i], g2[j])];
        j := j + 1;
      }
      assert g2[..j] == g2;
      assert g1[..i + 1][..i] == g1[..i];
      i := i + 1;
    }
    assert g1[..i] == g1;
  }
}

=== FILE: wrappers.dfy ===
/** The optional values of the editor: a JavaScript `null`/`undefined` becomes `None`. */
module Wrappers {

  datatype Option<+T> = None | Some(value: T)
}
